=== FILE: README.md ===
# TubeFetch in Dafny

TubeFetch is a small YouTube downloader with two halves:

- **The browser controller**, the `TubeFetch` class of `script.js`. The user pastes a link and
  the controller checks it against an anchored regular expression. It then asks the backend for
  the video's metadata and formats, remembers the video id of the link in `currentVideoId`, and
  shows one button per video or audio format. A button starts a download, and a one-second
  interval then polls the backend's progress table until it reports an error or 100 percent.
- **The Flask backend**, `app.py`. It catalogues the formats `yt_dlp` reports and starts a
  download thread per request. A progress hook records each download's percentage, speed and
  eta in the module-level dictionary `download_progress`.

This project models both halves and the text they exchange.

- `youtube_url.dfy`: the two regular expressions.
  - `isValidYouTubeUrl` is a scanner. It is proved equal to the language of the anchored
    expression (every choice of scheme, `www.` and host, followed by eleven id characters).
  - `extractVideoId` is the leftmost-position search of the unanchored expression. It is proved
    to return the same id whenever validation accepts.
- `text.dfy`: `String.prototype.trim`, clamped `substring`, and the decimal rendering used by
  template literals.
- `display_format.dfy`: `formatTime`, with JavaScript's truncating `%`, proved to lose nothing
  by reading it back for any non-negative number of seconds, and `formatDate`.
- `protocol.dfy`: the JSON bodies of the three routes and JavaScript truthiness.
- `catalog.dfy`: the format loop of `get_video_info`, as a specification function and as the
  imperative loop proved equal to it.
- `backend.dfy`:
  - the progress hook, including its rounding to a tenth of a percent;
  - the error write of the download thread;
  - the `video-info`, `download` and `progress` routes;
  - the table and the started threads, as a `Server` class.
- `controller.dfy`: the `TubeFetch` class.
  - Its fields are the session id, the loading flag, the button grid, one flag per interval
    ever created, and a log of what the user sees and what is sent.
  - Each asynchronous action is one method. The way its network call ended is passed in as a
    parameter.
- `interplay.dfy`: what the client's tick decides on the bodies the backend's table can produce,
  and two scenarios that drive both classes.
  - A finished hook ends polling.
  - A downloading event ends it exactly when between 99.95% and 100.05% is done, because of
    the rounding. When the downloaded bytes overrun an estimated total by more than that, the
    client keeps polling.
  - An empty error text keeps the client polling forever, unless a later download of the same
    video writes a new entry.
  - A completed entry from an earlier download of the same video stops the next download's
    polling at its first tick, because the `download` route never clears it. This holds unless
    the new download's hook writes first.
  - A cleared input box makes the backend refuse a download. If the table holds no entry for
    the video and no earlier download of it is still running, the client then polls its progress
    forever. A leftover error or completed entry ends that polling at the first tick, and so does
    an entry that a still-running download writes later.

Behaviour worth knowing:

- A new download does not cancel an interval that is still running. Every interval reads the
  current session id at each tick, and there is no staleness guard.
- `extractVideoId` uses its own expression, and that expression is not anchored. `ExtractIsUnanchored`
  exhibits a string the validator rejects but from which an id is still extracted.
- The backend stores the percentage rounded to one decimal, so the client's test for exactly 100
  can succeed before the download has finished.

## Model

| member | source | states |
|---|---|---|
| YouTubeUrl.MatchHost | script.js:64 | a match of the host-and-id group captures an eleven-character id of `[A-Za-z0-9_-]` |
| YouTubeUrl.MatchHostCases | script.js:64 | the host-and-id group matches exactly when `youtube.com/watch?v=` or `youtu.be/` is followed by eleven id characters, the capture is those characters, and only one host can match |
| YouTubeUrl.IsValidYouTubeUrl | script.js:63-66 | an accepted string is at least as long as `youtu.be/` plus an id; `ValidIffPattern` characterises acceptance exactly |
| YouTubeUrl.ValidIffPattern | script.js:63-66 | the validator accepts a string exactly when it begins with an optional `http://`/`https://`, an optional `www.`, one of the two hosts and an eleven-character id |
| YouTubeUrl.PatternImpliesValid | script.js:64 | every string of the regular language, whatever follows the id, is accepted |
| YouTubeUrl.ValidImpliesPattern | script.js:64 | every accepted string has a scheme, subdomain and host choice that puts it in the regular language |
| YouTubeUrl.ExtractVideoId | script.js:68-72 | extraction yields null or an eleven-character id of `[A-Za-z0-9_-]` |
| YouTubeUrl.ExtractFrom | script.js:69-70 | the search from a position yields null or an eleven-character id |
| YouTubeUrl.ExtractFromFirst | script.js:69-70 | the search from a position returns the capture at the first matching position after it |
| YouTubeUrl.ExtractFromNone | script.js:69-71 | the search yields null when no position matches |
| YouTubeUrl.ExtractSpec | script.js:68-72 | extraction is null exactly when no position of the string matches, and otherwise the capture of the leftmost match |
| YouTubeUrl.ValidImpliesExtract | script.js:63-72 | whenever validation accepts, extraction succeeds with the id the validator saw |
| YouTubeUrl.TrailingTextIgnored | script.js:63-72 | for every scheme, `www.` and host choice, text after the id (a query string, a playlist parameter) neither makes the validator reject nor changes the extracted id |
| YouTubeUrl.ExtractIsUnanchored | script.js:63-72 | `m.youtu.be/<id>` is rejected by the validator yet yields `<id>` when extracted |
| Text.TrimStartSpec | script.js:23 | the start-trim removes a whitespace prefix and keeps a suffix that does not start with whitespace |
| Text.TrimEndSpec | script.js:23 | the end-trim removes a whitespace suffix and keeps a prefix that does not end with whitespace |
| Text.Trim | script.js:23 | `trim` never lengthens its input; `TrimSpec` and `TrimSlice` say what it keeps |
| Text.TrimSpec | script.js:23 | `trim` gives the empty string exactly for all-whitespace input, and otherwise neither end is whitespace |
| Text.TrimSlice | script.js:23 | `trim` keeps one contiguous slice of its input, with only whitespace around it |
| Text.Substring | script.js:265-267 | `substring` is the slice when the end is in range, the rest of the string from the start when only the start is in range, and empty when the start is past the end |
| Text.NatDecimal | script.js:254 | a number in a template literal is all digits, with no leading zero |
| Text.Decimal | script.js:254 | an integer is rendered with a minus sign exactly when it is negative, followed only by digits |
| Text.NatDecimalValue | script.js:254 | the digits of a natural number read back as that number |
| Text.DecimalRoundTrip | script.js:254 | what a template literal shows for an integer, read back with its sign, is that integer |
| DisplayFormat.JsRem | script.js:250-251 | `%` agrees with the mathematical remainder for non-negative operands, lies between `-b` and 0 for a negative dividend, and always differs from the dividend by a multiple of the divisor |
| DisplayFormat.FormatTime | script.js:248-260 | every rendered duration ends with the seconds unit `s` |
| DisplayFormat.TimeParts | script.js:249-251 | for non-negative seconds, hours, minutes and seconds are the mixed-radix digits of the count |
| DisplayFormat.FormatTimeRoundTrip | script.js:248-260 | for a non-negative count, reading back the `Xh Ym Zs` text gives that count, so dropping zero components loses nothing |
| DisplayFormat.FormatTimeUnits | script.js:253-259 | the hours appear exactly from 3600 seconds on, and the minutes exactly from 60 seconds on |
| DisplayFormat.FormatDate | script.js:262-269 | an empty date gives `Unknown date`; any other token gives its first eight characters (fewer if it is shorter), with a dash after the clamped year and after the clamped month, and removing the two dashes gives those characters back; a token of eight or more characters gives `YYYY-MM-DD` |
| Catalog.SizeOf | app.py:58 | the size recorded for a kept format is the truthy `filesize`, else `filesize_approx`, and is never zero |
| Catalog.Describe | app.py:56-80 | formats with video and audio are `video` with the plain label, video-only formats are `video` with ` video`, all others are `audio` with ` audio`; the id, extension and size are carried over |
| Catalog.DescribeAll | app.py:74-80 | one record per format, position by position |
| Catalog.CatalogOf | app.py:53-80 | the catalogue fails with `'format_id'` exactly when a kept format has no id; otherwise it has one record per kept format, each video or audio with a non-zero size |
| Catalog.Kept | app.py:54-55 | the kept formats are no more than the reported ones, and each has a truthy size |
| Catalog.KeptExactly | app.py:54-55 | a format is kept exactly when it has a truthy size, and kept formats stay in input order |
| Catalog.KeptSnoc | app.py:54-55 | one more reported format extends the kept list by itself exactly when its size is truthy |
| Catalog.MissingIdFails | app.py:55-75 | a kept format without a `format_id` key fails the whole catalogue with `'format_id'` |
| Catalog.BuildFormats | app.py:53-80 | the appending loop, leaving at the first kept format without an id, computes the catalogue |
| Backend.BodyOf | app.py:141-144 | a progress entry is sent as `{percent, speed, eta}` with its three values, or as `{error}` with no other key |
| Backend.Total | app.py:24 | the total is the exact size when that is truthy, and otherwise the estimate, or 0 when no estimate is reported; a non-zero total is always one of the two reported sizes |
| Backend.Fraction | app.py:25-27 | the unrounded percentage lies between 0 and 100 while the downloaded bytes stay within the total, and is 100 when they equal it |
| Backend.RoundTenth | app.py:29 | `round(x, 1)` moves its argument by at most half a tenth |
| Backend.RoundTenthHundred | app.py:29 | a value rounds to 100 exactly when it lies within half a tenth of 100 |
| Backend.RoundTenthPercent | app.py:29 | rounding keeps a percentage between 0 and 100 |
| Backend.HookEntry | app.py:22-38 | a downloading event writes exactly when its total is positive, with the rounded percentage and the speed and eta defaulting to 0; a finished event writes 100 with zeros; any other status writes nothing |
| Backend.HookPercentInRange | app.py:24-29 | while the downloaded bytes stay within the total, the written percentage lies between 0 and 100 |
| Backend.Server.constructor | app.py:16 | the table starts empty, with no threads |
| Backend.Server.DownloadVideo | app.py:98-114 | starting a download adds exactly one thread for its parameters and leaves the table alone |
| Backend.Server.DownloadFailed | app.py:110-111 | a raised download replaces the video's entry with `{error}` and touches no other entry |
| Backend.Server.Download | app.py:128-139 | a falsy url, format id or video id is refused with `Missing parameters` and starts nothing; otherwise exactly one thread starts and the reply is `Download started` |
| Backend.Server.ProgressOf | app.py:141-144 | an unknown id answers `{}`; a known one answers its entry |
| Backend.DownloadProgressHook.constructor | app.py:18-20 | the hook is bound to one video id |
| Backend.DownloadProgressHook.Hook | app.py:22-38 | the hook writes its event's entry, if any, under its own id and leaves every other entry as it was |
| Backend.MetaOf | app.py:82-91 | each metadata field is the reported value when its key is present, and otherwise its default: `Unknown Title`, an empty thumbnail, `Unknown`, `Unknown Channel`, 0, an empty date |
| Backend.InfoReplyFor | app.py:40-96 | the reply succeeds exactly when the extraction returned a format list whose kept formats all have ids, and then carries the metadata and one record per kept format, in order; every failure carries a text, which is the extraction's own message, `'formats'` or `'format_id'` according to the cause |
| Backend.GetVideoInfo | app.py:40-96 | `get_video_info`, running the catalogue loop, gives the reply `InfoReplyFor` characterises |
| Backend.VideoInfo | app.py:117-126 | a falsy url is refused with `No URL provided` before any extraction; otherwise the reply is `get_video_info`'s |
| Controller.LookupTrace | script.js:22-61 | rejected input yields one alert and no request; accepted input sends exactly one request, with loading on before it and off last whatever the outcome, and an alert exactly when the lookup did not succeed |
| Controller.ButtonOrder | script.js:95-114 | the grid holds only video and audio buttons, and no audio button comes before a video button |
| Controller.ButtonsPartition | script.js:100-113 | every video or audio format gets as many buttons as it occurs in the reply, and other formats get none |
| Controller.ButtonsKeepOrder | script.js:100-101 | selecting the formats of one kind distributes over concatenation, so a selection keeps the reply's order |
| Controller.OfKindOfKind | script.js:100-101 | selecting a kind twice is selecting it once, and selecting two different kinds in turn leaves nothing |
| Controller.ButtonsFollowReply | script.js:100-113 | the grid's video buttons are exactly the reply's video formats in the reply's order, and its audio buttons exactly the reply's audio formats in the reply's order |
| Controller.Decide | script.js:170-203 | a truthy error is reported and stops polling; otherwise a present percent is shown, with speed and eta only when truthy, and stops polling exactly at 100; anything else, a thrown request included, keeps polling |
| Controller.TickEvents | script.js:180-199 | a tick that keeps polling shows nothing, an error shows one alert, and an update shows its progress (complete exactly at 100, the eta as `formatTime` text exactly when present), followed by the scheduled hiding exactly when it stops polling |
| Controller.TubeFetch.constructor | script.js:2-6 | the session starts with no video id, no buttons and no intervals |
| Controller.TubeFetch.FetchVideoInfo | script.js:22-61 | the lookup shows exactly its trace; the session id and buttons change only on a successful reply, and then to the id extracted from the sent URL and the ordered grid of the reply's formats |
| Controller.TubeFetch.Lookup | script.js:36-60 | after both guards, the request is sent and the reply handled as above, with loading switched off at the end |
| Controller.TubeFetch.GenerateDownloadOptions | script.js:95-114 | the two loops leave the grid equal to the video buttons followed by the audio buttons |
| Controller.TubeFetch.StartDownload | script.js:131-160 | without a session id nothing happens; otherwise the current input and the session id are sent, and one new interval starts unless the request throws, with earlier intervals left running |
| Controller.TubeFetch.Tick | script.js:169-204 | a cleared interval does nothing; a live one asks for the current session id and is cleared exactly when `Decide` says to stop, with no other interval touched |
| Interplay.FinishedEndsPolling | app.py:33-38 | after the finished event, the next tick shows 100% as complete with no speed or eta, and ends polling |
| Interplay.DownloadingStopsNearComplete | app.py:26-29 | a downloading event ends polling exactly when 1999·total ≤ 2000·downloaded ≤ 2001·total, that is, when between 99.95% and 100.05% of the total is downloaded |
| Interplay.NearHundred | app.py:27-29 | the unrounded percentage lies within half a tenth of 100 exactly when the byte counts satisfy those bounds |
| Interplay.FailureEndsPollingUnlessEmpty | app.py:110-111 | a failure entry is reported and ends polling, except that an empty error text keeps the client polling |
| Interplay.NoEntryKeepsPolling | app.py:141-144 | before the hook first writes, a tick does nothing and polling goes on |
| Interplay.StaleCompletionEndsNewPoll | app.py:128-139 | a completed entry left for a video makes the next download's first tick show completion and stop |
| Interplay.EveryCatalogFormatGetsAButton | app.py:60-72 | every record of a successful catalogue gets exactly one button |
| Interplay.ShareLinkAccepted | script.js:63-72 | `https://youtu.be/dQw4w9WgXcQ?si=abc` is accepted, and its id is `dQw4w9WgXcQ` |

## Left out

- Rendering: the preview, the progress bar's width and the button markup are not modelled.
  They appear only as events in the controller's log. `formatViews`, `formatFileSize` and
  `formatSpeed` work on floating point (`toFixed`, `Math.log`, `Math.pow`), so the speed is
  logged as the raw number.
- `showError`: it prefixes its message with `Error: ` inside `alert`. The log keeps only the
  message.
- `init` and `bindEvents`: clicking the button or pressing Enter is calling `FetchVideoInfo`.
  A quality button's click handler is calling `StartDownload` with its format id.
- Interleaving: each asynchronous action runs to completion in one method. Ticks, lookups and
  starts interleaved at their `await` points are not modelled. Timer periods, and the
  three-second delay before the progress section hides (logged as `HideScheduled`), are not
  modelled.
- `console.error` calls are not modelled.
- Python `None` values are not modelled. `.get(key, default)` returns `None` when the key is
  present with the value `None`, but the model treats `None` as a missing key. So a format whose
  `format_note` is `None` is labelled `unknown` here, where the code writes `None`, and a hook
  event whose `speed` is `None` stores 0 here, where the code stores `None`.
- JSON `null` values and values of unexpected types are not modelled. A body that is not JSON
  is a thrown request.
- Characters: a Dafny `string` is a sequence of Unicode scalar values, while JavaScript counts
  UTF-16 code units. `trim`, `substring` and the regular expressions agree with the code for
  text without characters outside the Basic Multilingual Plane. A date token holding such a
  character would be sliced differently by `formatDate`.
- Numbers: percentages, speeds and `round` are exact reals rather than binary floating point.
  An exact tie in `round` goes to the even neighbour. The eta is an integer. `Text.Decimal`
  always writes digits, whereas a template literal shows an integer of magnitude 10^21 or more in
  exponent form (`1e+21`).
- `yt_dlp` and threads: extraction is a parameter that either returns the information
  dictionary or raises with a message. Downloading is the sequence of hook events and the
  optional final failure, called by whoever drives the model. A background thread runs
  whenever its caller runs it.
- Python exceptions: only the `KeyError` texts for a missing `formats` or `format_id` key are
  modelled. `extract_info` returning `None`, and a request without a JSON body, are not.
- `download_file`, the Flask and CORS setup, `app.run` and the creation of the download folder
  are not part of this model.
- `Backend.HookEntry`: its contract bounds the written percentage to within half a tenth of
  the unrounded fraction. The exact value is `RoundTenth` of it, which `Backend.RoundTenthHundred`
  characterises where it matters, at 100.

=== FILE: backend.dfy ===
/** The Flask backend (app.py): the module-level `download_progress` table, the yt_dlp progress
    hook that fills it, the failure write of the download thread, and the three API routes. */
module Backend {
  import opened Wrappers
  import opened Protocol
  import opened Catalog

  /** A value of `download_progress`: `{percent, speed, eta}` or `{error}`. */
  datatype ProgressEntry = Status(percent: real, speed: real, eta: int) | Failed(error: string)

  /** `jsonify` of a table entry. */
  function BodyOf(e: ProgressEntry): (b: ProgressBody)
    ensures e.Status? ==> b.error.None? && b.percent == Some(e.percent) && b.speed == Some(e.speed) && b.eta == Some(e.eta)
    ensures e.Failed? ==> b.error == Some(e.error) && b.percent.None? && b.speed.None? && b.eta.None?
  {
    match e
    case Status(p, s, t) => ProgressBody(None, Some(p), Some(s), Some(t))
    case Failed(m) => ProgressBody(Some(m), None, None, None)
  }

  /** The dictionary yt_dlp passes to a progress hook; `None` is a missing key. */
  datatype HookEvent = HookEvent(
    status: string, totalBytes: Option<int>, totalBytesEstimate: Option<int>,
    downloadedBytes: Option<int>, speed: Option<real>, eta: Option<int>)

  /** `d.get('total_bytes') or d.get('total_bytes_estimate', 0)` */
  function Total(d: HookEvent): (r: int)
    ensures NonZero(d.totalBytes) ==> r == d.totalBytes.value
    ensures !NonZero(d.totalBytes) ==> r == d.totalBytesEstimate.GetOr(0)
    ensures r != 0 ==> d.totalBytes == Some(r) || d.totalBytesEstimate == Some(r)
  {
    if NonZero(d.totalBytes) then d.totalBytes.value else d.totalBytesEstimate.GetOr(0)
  }

  function Downloaded(d: HookEvent): int {
    d.downloadedBytes.GetOr(0)
  }

  /** `round(x, 1)`: the nearest multiple of a tenth, an exact tie going to the even neighbour. */
  function RoundTenth(x: real): (r: real)
    ensures -0.05 <= r - x <= 0.05
  {
    var y := x * 10.0;
    var f := y.Floor;
    var n := if y - f as real > 0.5 || (y - f as real == 0.5 && f % 2 != 0) then f + 1 else f;
    n as real / 10.0
  }

  /** A value rounds to 100 exactly when it lies within half a tenth of 100. */
  lemma RoundTenthHundred(x: real)
    ensures RoundTenth(x) == 100.0 <==> 99.95 <= x <= 100.05
  {
    var y := x * 10.0;
    var f := y.Floor;
    if 99.95 <= x <= 100.05 {
      assert 999.5 <= y <= 1000.5;
      if y < 1000.0 {
        assert f == 999;
      } else {
        assert f == 1000;
      }
    }
  }

  /** Rounding keeps a value inside the range from 0 to 100. */
  lemma RoundTenthPercent(x: real)
    requires 0.0 <= x <= 100.0
    ensures 0.0 <= RoundTenth(x) <= 100.0
  {
    var y := x * 10.0;
    var f := y.Floor;
    assert 0 <= f <= 1000;
    if f == 1000 {
      assert y - f as real == 0.0;
    }
  }

  /** The percentage a downloading event reports, before rounding. */
  function Fraction(d: HookEvent): (r: real)
    requires Total(d) > 0
    ensures 0 <= Downloaded(d) <= Total(d) ==> 0.0 <= r <= 100.0
    ensures Downloaded(d) == Total(d) ==> r == 100.0
  {
    var q := Downloaded(d) as real / Total(d) as real;
    assert q * (Total(d) as real) == Downloaded(d) as real;
    assert 0 <= Downloaded(d) <= Total(d) ==> 0.0 <= q <= 1.0;
    q * 100.0
  }

  /** The entry `hook` writes for an event, if any (app.py:22-38): a downloading event with a
      positive total writes the fraction done as a percentage rounded to a tenth, a finished event
      writes 100 with zero speed and eta, and every other event writes nothing. */
  function HookEntry(d: HookEvent): (w: Option<ProgressEntry>)
    ensures d.status == "downloading" ==> (w.Some? <==> Total(d) > 0)
    ensures d.status == "downloading" && w.Some? ==>
              w.value.Status? && -0.05 <= w.value.percent - Fraction(d) <= 0.05
              && w.value.speed == d.speed.GetOr(0.0) && w.value.eta == d.eta.GetOr(0)
    ensures d.status == "finished" ==> w == Some(Status(100.0, 0.0, 0))
    ensures d.status != "downloading" && d.status != "finished" ==> w.None?
  {
    if d.status == "downloading" then
      if Total(d) > 0 then
        Some(Status(RoundTenth(Fraction(d)), d.speed.GetOr(0.0), d.eta.GetOr(0)))
      else None
    else if d.status == "finished" then Some(Status(100.0, 0.0, 0))
    else None
  }

  /** While the downloaded count stays within the total, a downloading event writes a percentage
      between 0 and 100. */
  lemma HookPercentInRange(d: HookEvent)
    requires d.status == "downloading" && 0 <= Downloaded(d) <= Total(d) && Total(d) > 0
    ensures 0.0 <= HookEntry(d).value.percent <= 100.0
  {
    RoundTenthPercent(Fraction(d));
  }

  /** A download thread started by the `download` route. */
  datatype Job = Job(url: string, formatId: string, videoId: string)

  /** The body of a `/api/download` reply. */
  datatype DownloadReply = Started(message: string) | Refused(error: string)

  /** The backend process: the progress table and the download threads started so far. */
  class Server {
    var progress: map<string, ProgressEntry>
    var jobs: seq<Job>

    constructor ()
      ensures progress == map[] && jobs == []
    {
      progress := map[];
      jobs := [];
    }

    /** `download_video`: starts the download thread; the table is left as it is. */
    method DownloadVideo(url: string, formatId: string, videoId: string)
      modifies this`jobs
      ensures jobs == old(jobs) + [Job(url, formatId, videoId)]
    {
      jobs := jobs + [Job(url, formatId, videoId)];
    }

    /** The `except` branch of the download thread (app.py:110-111): whatever the entry was, it
        becomes `{'error': str(e)}`; no other entry changes. */
    method DownloadFailed(videoId: string, message: string)
      modifies this`progress
      ensures progress == old(progress)[videoId := Failed(message)]
      ensures forall k | k != videoId :: (k in progress <==> k in old(progress))
                                      && (k in progress ==> progress[k] == old(progress)[k])
    {
      progress := progress[videoId := Failed(message)];
    }

    /** The `download` route (app.py:128-139): any falsy parameter refuses the request without
        starting a thread; otherwise one thread is started for exactly these parameters. */
    method Download(url: Option<string>, formatId: Option<string>, videoId: Option<string>)
      returns (reply: DownloadReply)
      modifies this`jobs
      ensures !(Truthy(url) && Truthy(formatId) && Truthy(videoId)) ==>
                reply == Refused("Missing parameters") && jobs == old(jobs)
      ensures Truthy(url) && Truthy(formatId) && Truthy(videoId) ==>
                reply == Started("Download started")
                && jobs == old(jobs) + [Job(url.value, formatId.value, videoId.value)]
    {
      if !(Truthy(url) && Truthy(formatId) && Truthy(videoId)) {
        return Refused("Missing parameters");
      }
      DownloadVideo(url.value, formatId.value, videoId.value);
      reply := Started("Download started");
    }

    /** The `progress` route (app.py:141-144): `download_progress.get(video_id, {})`. */
    function ProgressOf(videoId: string): (body: ProgressBody)
      reads this
      ensures videoId !in progress ==> body == EmptyBody
      ensures videoId in progress ==> body == BodyOf(progress[videoId])
    {
      if videoId in progress then BodyOf(progress[videoId]) else EmptyBody
    }
  }

  /** `DownloadProgressHook`: bound to one video id, writing into the server's table. */
  class DownloadProgressHook {
    const videoId: string
    const server: Server

    constructor (videoId: string, server: Server)
      ensures this.videoId == videoId && this.server == server
    {
      this.videoId := videoId;
      this.server := server;
    }

    /** `hook` (app.py:22-38): writes `HookEntry(d)`, when there is one, under its own video id
        and never touches another entry. */
    method Hook(d: HookEvent)
      modifies server`progress
      ensures HookEntry(d).Some? ==> server.progress == old(server.progress)[videoId := HookEntry(d).value]
      ensures HookEntry(d).None? ==> server.progress == old(server.progress)
      ensures forall k | k != videoId :: (k in server.progress <==> k in old(server.progress))
                                      && (k in server.progress ==> server.progress[k] == old(server.progress)[k])
    {
      if d.status == "downloading" {
        if Total(d) > 0 {
          var percent := RoundTenth(Fraction(d));
          server.progress := server.progress[videoId := Status(percent, d.speed.GetOr(0.0), d.eta.GetOr(0))];
        }
      } else if d.status == "finished" {
        server.progress := server.progress[videoId := Status(100.0, 0.0, 0)];
      }
    }
  }

  /** The information dictionary `extract_info` returns; `None` is a missing key. */
  datatype RawInfo = RawInfo(
    formats: Option<seq<RawFormat>>, title: Option<string>, thumbnail: Option<string>,
    durationString: Option<string>, uploader: Option<string>, viewCount: Option<int>, uploadDate: Option<string>)

  /** What `yt_dlp`'s `extract_info` does for a URL: returns the information, or raises. */
  datatype Extraction = Extracted(info: RawInfo) | Raised(message: string)

  /** The metadata part of a successful reply, with the defaults of its `.get` calls. */
  function MetaOf(info: RawInfo): (m: VideoMeta)
    ensures info.title.Some? ==> m.title == info.title.value
    ensures info.title.None? ==> m.title == "Unknown Title"
    ensures info.thumbnail.Some? ==> m.thumbnail == info.thumbnail.value
    ensures info.thumbnail.None? ==> m.thumbnail == ""
    ensures info.durationString.Some? ==> m.duration == info.durationString.value
    ensures info.durationString.None? ==> m.duration == "Unknown"
    ensures info.uploader.Some? ==> m.channel == info.uploader.value
    ensures info.uploader.None? ==> m.channel == "Unknown Channel"
    ensures info.viewCount.Some? ==> m.viewCount == info.viewCount.value
    ensures info.viewCount.None? ==> m.viewCount == 0
    ensures info.uploadDate.Some? ==> m.uploadDate == info.uploadDate.value
    ensures info.uploadDate.None? ==> m.uploadDate == ""
  {
    VideoMeta(info.title.GetOr("Unknown Title"), info.thumbnail.GetOr(""), info.durationString.GetOr("Unknown"),
              info.uploader.GetOr("Unknown Channel"), info.viewCount.GetOr(0), info.uploadDate.GetOr(""))
  }

  /** `info['formats']` on a dictionary without the key raises `KeyError('formats')`. */
  const MissingFormats := "'formats'"

  /** The reply of `get_video_info` (app.py:40-96). It succeeds exactly when the extraction
      returned a format list whose kept formats all have an id, and then carries the metadata and
      one record per kept format, in order. Every failure carries a text: the extraction's own
      message, or the `KeyError` text of the missing key. */
  function InfoReplyFor(x: Extraction): (reply: InfoReply)
    ensures reply.InfoFailure? ==> reply.error.Some?
    ensures reply.InfoSuccess? <==>
              x.Extracted? && x.info.formats.Some? && AllIdentified(Kept(x.info.formats.value))
    ensures x.Raised? ==> reply.error == Some(x.message)
    ensures x.Extracted? && x.info.formats.None? ==> reply.error == Some(MissingFormats)
    ensures x.Extracted? && x.info.formats.Some? && reply.InfoFailure? ==> reply.error == Some(MissingFormatId)
    ensures reply.InfoSuccess? ==>
              var kept := Kept(x.info.formats.value);
              reply.meta == MetaOf(x.info) && |reply.formats| == |kept|
              && forall j | 0 <= j < |kept| :: reply.formats[j] == Describe(kept[j])
  {
    match x
    case Raised(m) => InfoFailure(Some(m))
    case Extracted(info) =>
      if info.formats.None? then InfoFailure(Some(MissingFormats))
      else match CatalogOf(info.formats.value)
        case Success(fs) => InfoSuccess(MetaOf(info), fs)
        case Failure(e) => InfoFailure(Some(e))
  }

  /** `get_video_info`, running the catalogue loop. */
  method GetVideoInfo(x: Extraction) returns (reply: InfoReply)
    ensures reply == InfoReplyFor(x)
  {
    if x.Raised? {
      return InfoFailure(Some(x.message));
    }
    if x.info.formats.None? {
      return InfoFailure(Some(MissingFormats));
    }
    var catalog := BuildFormats(x.info.formats.value);
    match catalog
    case Success(fs) => reply := InfoSuccess(MetaOf(x.info), fs);
    case Failure(e) => reply := InfoFailure(Some(e));
  }

  /** The `video_info` route (app.py:117-126): a missing or empty url is refused before any
      extraction; otherwise the reply is that of `get_video_info`. */
  method VideoInfo(url: Option<string>, x: Extraction) returns (reply: InfoReply)
    ensures !Truthy(url) ==> reply == InfoFailure(Some("No URL provided"))
    ensures Truthy(url) ==> reply == InfoReplyFor(x)
  {
    if !Truthy(url) {
      return InfoFailure(Some("No URL provided"));
    }
    reply := GetVideoInfo(x);
  }
}

=== FILE: catalog.dfy ===
/** The format catalogue of `get_video_info` (app.py:53-80): the formats yt_dlp reports are filtered
    to those with a known size, classified as video or audio and given a quality label. */
module Catalog {
  import opened Wrappers
  import opened Seqs
  import opened Protocol

  /** A format dictionary as yt_dlp reports it; `None` is a missing key. */
  datatype RawFormat = RawFormat(
    formatId: Option<string>, formatNote: Option<string>, ext: Option<string>,
    filesize: Option<int>, filesizeApprox: Option<int>, vcodec: Option<string>, acodec: Option<string>)

  /** A number is truthy in Python when it is present and non-zero. */
  predicate NonZero(n: Option<int>) {
    n.Some? && n.value != 0
  }

  /** `f.get('filesize') or f.get('filesize_approx')` */
  predicate HasSize(f: RawFormat) {
    NonZero(f.filesize) || NonZero(f.filesizeApprox)
  }

  /** A missing codec is not `'none'`, so it counts as present. */
  predicate HasVideo(f: RawFormat) { f.vcodec != Some("none") }
  predicate HasAudio(f: RawFormat) { f.acodec != Some("none") }

  /** `f.get('filesize') or f.get('filesize_approx', 0)`: never falsy for a kept format. */
  function SizeOf(f: RawFormat): (n: int)
    requires HasSize(f)
    ensures n != 0
    ensures NonZero(f.filesize) ==> n == f.filesize.value
    ensures !NonZero(f.filesize) ==> n == f.filesizeApprox.value
  {
    if NonZero(f.filesize) then f.filesize.value else f.filesizeApprox.GetOr(0)
  }

  function Note(f: RawFormat): string { f.formatNote.GetOr("unknown") }
  function Ext(f: RawFormat): string { f.ext.GetOr("unknown") }

  /** The record appended for a kept format: muxed formats are `video` with the plain label,
      video-only formats `video` marked " video", everything else `audio` marked " audio". */
  function Describe(f: RawFormat): (e: FormatEntry)
    requires HasSize(f) && f.formatId.Some?
    ensures e.formatId == f.formatId.value && e.ext == Ext(f) && e.filesize == SizeOf(f) != 0
    ensures e.kind == "video" <==> HasVideo(f)
    ensures e.kind == "audio" <==> !HasVideo(f)
    ensures HasVideo(f) && HasAudio(f) ==> e.quality == Note(f) + " (" + Ext(f) + ")"
    ensures HasVideo(f) && !HasAudio(f) ==> e.quality == Note(f) + " video (" + Ext(f) + ")"
    ensures !HasVideo(f) ==> e.quality == Note(f) + " audio (" + Ext(f) + ")"
  {
    var (kind, quality) :=
      if HasVideo(f) && HasAudio(f) then ("video", Note(f) + " (" + Ext(f) + ")")
      else if HasVideo(f) then ("video", Note(f) + " video (" + Ext(f) + ")")
      else ("audio", Note(f) + " audio (" + Ext(f) + ")");
    FormatEntry(f.formatId.value, quality, kind, SizeOf(f), Ext(f))
  }

  /** The formats the loop keeps, in input order. */
  function Kept(formats: seq<RawFormat>): (r: seq<RawFormat>)
    ensures |r| <= |formats| && forall f <- r :: HasSize(f)
  {
    Filter(formats, HasSize)
  }

  /** A kept format without a `format_id` key makes `f['format_id']` raise `KeyError`, whose
      text is the quoted key. */
  const MissingFormatId := "'format_id'"

  predicate AllIdentified(fs: seq<RawFormat>) {
    forall f <- fs :: f.formatId.Some?
  }

  function DescribeAll(fs: seq<RawFormat>): (es: seq<FormatEntry>)
    requires forall f <- fs :: HasSize(f) && f.formatId.Some?
    ensures |es| == |fs|
    ensures forall j | 0 <= j < |fs| :: es[j] == Describe(fs[j])
  {
    if fs == [] then [] else [Describe(fs[0])] + DescribeAll(fs[1..])
  }

  /** Describing one more format appends its record. */
  lemma DescribeAllSnoc(fs: seq<RawFormat>, f: RawFormat)
    requires forall g <- fs :: HasSize(g) && g.formatId.Some?
    requires HasSize(f) && f.formatId.Some?
    ensures DescribeAll(fs + [f]) == DescribeAll(fs) + [Describe(f)]
  {
    var a, b := DescribeAll(fs + [f]), DescribeAll(fs) + [Describe(f)];
    forall j | 0 <= j < |a| ensures a[j] == b[j] {
      if j < |fs| {
        assert (fs + [f])[j] == fs[j];
      }
    }
  }

  /** What the loop of `get_video_info` produces: one record per kept format, in input order,
      or the `KeyError` of the first kept format without an id. */
  function CatalogOf(formats: seq<RawFormat>): (r: Result<seq<FormatEntry>, string>)
    ensures r.Failure? <==> !AllIdentified(Kept(formats))
    ensures r.Failure? ==> r.error == MissingFormatId
    ensures r.Success? ==> |r.value| == |Kept(formats)|
    ensures r.Success? ==> forall e <- r.value :: e.filesize != 0 && (e.kind == "video" || e.kind == "audio")
  {
    if AllIdentified(Kept(formats)) then Success(DescribeAll(Kept(formats))) else Failure(MissingFormatId)
  }

  /** A format survives the filter exactly when it has a truthy size; survivors keep their order. */
  lemma KeptExactly(formats: seq<RawFormat>, more: seq<RawFormat>, f: RawFormat)
    ensures f in Kept(formats) <==> f in formats && HasSize(f)
    ensures Kept(formats + more) == Kept(formats) + Kept(more)
  {
    FilterMember(formats, HasSize, f);
    FilterConcat(formats, more, HasSize);
  }

  /** One more format extends the kept list by itself exactly when it has a size. */
  lemma KeptSnoc(formats: seq<RawFormat>, f: RawFormat)
    ensures Kept(formats + [f]) == if HasSize(f) then Kept(formats) + [f] else Kept(formats)
  {
    FilterSnoc(formats, f, HasSize);
  }

  /** A kept format without an id fails the whole catalogue. */
  lemma MissingIdFails(formats: seq<RawFormat>, i: nat)
    requires i < |formats| && HasSize(formats[i]) && formats[i].formatId.None?
    ensures CatalogOf(formats) == Failure(MissingFormatId)
  {
    KeptExactly(formats, [], formats[i]);
  }

  /** The `for` loop of `get_video_info` with its `append`. */
  method BuildFormats(formats: seq<RawFormat>) returns (r: Result<seq<FormatEntry>, string>)
    ensures r == CatalogOf(formats)
  {
    var out: seq<FormatEntry> := [];
    for i := 0 to |formats|
      invariant AllIdentified(Kept(formats[..i]))
      invariant out == DescribeAll(Kept(formats[..i]))
    {
      var f := formats[i];
      if HasSize(f) && f.formatId.None? {
        MissingIdFails(formats, i);
        return Failure(MissingFormatId);
      }
      if HasSize(f) {
        out := out + [Describe(f)];
      }
      assert AllIdentified(Kept(formats[..i + 1])) && out == DescribeAll(Kept(formats[..i + 1])) by {
        assert formats[..i + 1] == formats[..i] + [f];
        KeptSnoc(formats[..i], f);
        if HasSize(f) {
          DescribeAllSnoc(Kept(formats[..i]), f);
        }
      }
    }
    r := Success(out);
    assert r == CatalogOf(formats) by {
      assert formats[..|formats|] == formats;
    }
  }
}

=== FILE: controller.dfy ===
/** The browser controller `TubeFetch` (script.js): the session field `currentVideoId`, the loading
    flag, the quality buttons, the progress intervals, and the decisions of `fetchVideoInfo`,
    `startDownload` and the `pollProgress` tick. Each network call is replaced by a parameter that
    says how it ended; what the user would see or what goes over the wire is appended to `log`. */
module Controller {
  import opened Wrappers
  import opened Seqs
  import opened Text
  import opened YouTubeUrl
  import opened DisplayFormat
  import opened Protocol

  datatype Request =
    | VideoInfoRequest(url: string)
    | DownloadRequest(url: string, formatId: string, videoId: string)
    | ProgressRequest(videoId: string)

  /** The observable effects of the controller, in the order they happen. */
  datatype Event =
    | Loading(on: bool)                                  // setLoading
    | Sent(request: Request)                             // fetch
    | Alert(message: string)                             // showError
    | PreviewShown(meta: VideoMeta, uploadDate: string)  // displayVideoInfo
    | ProgressSectionShown
    | ProgressShown(percent: real, status: string, speed: Option<real>, eta: Option<string>)
    | HideScheduled                                      // the 3-second setTimeout

  /** How the `/video-info` call ended: a parsed JSON body, or a rejected promise. */
  datatype FetchOutcome = Replied(reply: InfoReply) | FetchThrown
  /** How the `/download` call ended; its body is never read. */
  datatype StartOutcome = StartReplied | StartThrown
  /** How one `/progress` call ended. */
  datatype PollOutcome = PollReplied(body: ProgressBody) | PollThrown

  // ---------------------------------------------------------------- lookup

  const EmptyUrlMessage := "Please enter a YouTube URL"
  const InvalidUrlMessage := "Please enter a valid YouTube URL"
  const FetchFailedMessage := "Failed to fetch video information"
  const NetworkMessage := "Network error. Please check if the backend server is running."

  /** The trimmed input passes both guards of `fetchVideoInfo`, so a request is sent. */
  predicate LookupSends(url: string) {
    url != [] && IsValidYouTubeUrl(url)
  }

  predicate LookupSucceeds(url: string, outcome: FetchOutcome) {
    LookupSends(url) && outcome.Replied? && outcome.reply.InfoSuccess?
  }

  function OutcomeEvents(outcome: FetchOutcome): seq<Event> {
    match outcome
    case Replied(InfoSuccess(meta, _)) => [PreviewShown(meta, FormatDate(meta.uploadDate))]
    case Replied(InfoFailure(e)) => [Alert(if Truthy(e) then e.value else FetchFailedMessage)]
    case FetchThrown => [Alert(NetworkMessage)]
  }

  /** What `fetchVideoInfo` shows and sends for the trimmed input `url`: a rejected input yields one
      alert and nothing else; an accepted one sends exactly one request, with loading switched on
      before it and off as the last effect, whatever the outcome. */
  function LookupTrace(url: string, outcome: FetchOutcome): (t: seq<Event>)
    ensures url == [] ==> t == [Alert(EmptyUrlMessage)]
    ensures !LookupSends(url) ==> |t| == 1 && t[0].Alert?
    ensures LookupSends(url) ==>
              |t| == 4 && t[0] == Loading(true) && t[1] == Sent(VideoInfoRequest(url)) && t[3] == Loading(false)
              && !t[2].Sent? && !t[2].Loading?
    ensures LookupSends(url) ==> (t[2].Alert? <==> !LookupSucceeds(url, outcome))
  {
    if url == [] then [Alert(EmptyUrlMessage)]
    else if !IsValidYouTubeUrl(url) then [Alert(InvalidUrlMessage)]
    else [Loading(true), Sent(VideoInfoRequest(url))] + OutcomeEvents(outcome) + [Loading(false)]
  }

  // ---------------------------------------------------------------- format buttons

  function OfKind(formats: seq<FormatEntry>, kind: string): seq<FormatEntry> {
    Filter(formats, (f: FormatEntry) => f.kind == kind)
  }

  /** The quality grid of `generateDownloadOptions`: the video formats, then the audio formats. */
  function ButtonOrder(formats: seq<FormatEntry>): (b: seq<FormatEntry>)
    ensures forall e <- b :: e.kind == "video" || e.kind == "audio"
    ensures forall i, j | 0 <= i < j < |b| :: !(b[i].kind == "audio" && b[j].kind == "video")
  {
    OfKind(formats, "video") + OfKind(formats, "audio")
  }

  /** Every video or audio format gets exactly one button, every other format none. */
  lemma ButtonsPartition(formats: seq<FormatEntry>, x: FormatEntry)
    ensures multiset(ButtonOrder(formats))[x] ==
              if x.kind == "video" || x.kind == "audio" then multiset(formats)[x] else 0
  {
    FilterCount(formats, (f: FormatEntry) => f.kind == "video", x);
    FilterCount(formats, (f: FormatEntry) => f.kind == "audio", x);
  }

  /** Within each kind the buttons keep the order of the reply. */
  lemma ButtonsKeepOrder(a: seq<FormatEntry>, b: seq<FormatEntry>, kind: string)
    ensures OfKind(a + b, kind) == OfKind(a, kind) + OfKind(b, kind)
  {
    FilterConcat(a, b, (f: FormatEntry) => f.kind == kind);
  }

  /** Selecting a kind from a selection of a kind keeps that selection when the kinds agree and
      leaves nothing when they differ. */
  lemma {:induction false} OfKindOfKind(formats: seq<FormatEntry>, first: string, second: string)
    ensures OfKind(OfKind(formats, first), second) == if first == second then OfKind(formats, first) else []
    decreases |formats|
  {
    if formats != [] {
      var head := if formats[0].kind == first then [formats[0]] else [];
      assert formats == [formats[0]] + formats[1..];
      assert OfKind(formats, first) == head + OfKind(formats[1..], first);
      ButtonsKeepOrder(head, OfKind(formats[1..], first), second);
      OfKindOfKind(formats[1..], first, second);
      assert OfKind(head, second) == if first == second then head else [] by {
        if head != [] {
          assert OfKind(head, second) == (if head[0].kind == second then [head[0]] else []) + OfKind(head[1..], second);
        }
      }
    }
  }

  /** The video buttons of the grid are the reply's video formats in the reply's order, and the
      audio buttons the reply's audio formats in the reply's order. */
  lemma ButtonsFollowReply(formats: seq<FormatEntry>)
    ensures OfKind(ButtonOrder(formats), "video") == OfKind(formats, "video")
    ensures OfKind(ButtonOrder(formats), "audio") == OfKind(formats, "audio")
  {
    var video, audio := OfKind(formats, "video"), OfKind(formats, "audio");
    ButtonsKeepOrder(video, audio, "video");
    ButtonsKeepOrder(video, audio, "audio");
    OfKindOfKind(formats, "video", "video");
    OfKindOfKind(formats, "audio", "video");
    OfKindOfKind(formats, "video", "audio");
    OfKindOfKind(formats, "audio", "audio");
  }

  // ---------------------------------------------------------------- progress tick

  /** What one tick does with the outcome of its request. */
  datatype TickAction =
    | ReportError(message: string)
    | Update(percent: real, speed: Option<real>, eta: Option<int>, stop: bool)
    | KeepPolling

  predicate Stops(a: TickAction) {
    a.ReportError? || (a.Update? && a.stop)
  }

  /** The body of the interval callback (script.js:170-203): a truthy `error` is reported and ends
      polling; otherwise a defined `percent` is displayed, with speed and eta only when truthy, and
      ends polling exactly at 100; anything else, a thrown error included, leaves polling on. */
  function Decide(o: PollOutcome): (a: TickAction)
    ensures a.ReportError? <==> o.PollReplied? && Truthy(o.body.error)
    ensures a.ReportError? ==> a.message == o.body.error.value
    ensures a.Update? <==> o.PollReplied? && !Truthy(o.body.error) && o.body.percent.Some?
    ensures a.Update? ==> a.percent == o.body.percent.value && (a.stop <==> a.percent == 100.0)
    ensures a.Update? ==> (a.speed.Some? <==> TruthyNumber(o.body.speed)) && (a.speed.Some? ==> a.speed == o.body.speed)
    ensures a.Update? ==> (a.eta.Some? <==> TruthyInt(o.body.eta)) && (a.eta.Some? ==> a.eta == o.body.eta)
    ensures Stops(a) <==> o.PollReplied? && (Truthy(o.body.error) || o.body.percent == Some(100.0))
  {
    match o
    case PollThrown => KeepPolling
    case PollReplied(b) =>
      if Truthy(b.error) then ReportError(b.error.value)
      else if b.percent.Some? then
        Update(b.percent.value,
               if TruthyNumber(b.speed) then b.speed else None,
               if TruthyInt(b.eta) then b.eta else None,
               b.percent.value == 100.0)
      else KeepPolling
  }

  const CompleteStatus := "Download Complete!"
  const DownloadingStatus := "Downloading..."

  /** What a tick shows: nothing when it keeps polling, an alert for an error, and for an update
      the progress (complete exactly at 100, the eta as `formatTime` text when there is one),
      followed by the scheduled hiding exactly when the update stops polling. */
  function TickEvents(a: TickAction): (e: seq<Event>)
    ensures e == [] <==> a.KeepPolling?
    ensures a.ReportError? ==> e == [Alert(a.message)]
    ensures a.Update? ==> e[0].ProgressShown? && e[0].percent == a.percent && e[0].speed == a.speed
                          && (e[0].status == CompleteStatus <==> a.percent == 100.0)
                          && (e[0].eta.Some? <==> a.eta.Some?)
                          && (a.eta.Some? ==> e[0].eta.value == FormatTime(a.eta.value))
    ensures HideScheduled in e <==> a.Update? && a.stop
  {
    match a
    case ReportError(m) => [Alert(m)]
    case Update(p, speed, eta, stop) =>
      [ProgressShown(p, if p == 100.0 then CompleteStatus else DownloadingStatus, speed,
                     if eta.Some? then Some(FormatTime(eta.value)) else None)]
      + (if stop then [HideScheduled] else [])
    case KeepPolling => []
  }

  const StartFailedMessage := "Failed to start download"

  // ---------------------------------------------------------------- the controller

  class TubeFetch {
    /** `this.currentVideoId` */
    var currentVideoId: Option<string>
    /** The state `setLoading` gives the fetch button. */
    var loading: bool
    /** The contents of the quality grid. */
    var buttons: seq<FormatEntry>
    /** One flag per interval `pollProgress` has created: true until it is cleared. */
    var intervals: seq<bool>
    var log: seq<Event>

    /** The id in the session is always a well-formed video id, polling only ever starts once there
        is one, and between actions the button is not in its loading state. */
    ghost predicate Valid()
      reads this
    {
      && (currentVideoId.Some? ==> IsVideoId(currentVideoId.value))
      && (|intervals| > 0 ==> currentVideoId.Some?)
      && !loading
    }

    constructor ()
      ensures Valid()
      ensures currentVideoId == None && buttons == [] && intervals == [] && log == []
    {
      currentVideoId := None;
      loading := false;
      buttons := [];
      intervals := [];
      log := [];
    }

    /** `fetchVideoInfo` (script.js:22-61) on the text of the input box. The id changes only on a
        successful reply, and then to the id of the URL that was sent; a rejected input, a backend
        failure or a thrown error keeps the previous id and buttons. */
    method FetchVideoInfo(input: string, outcome: FetchOutcome)
      requires Valid()
      modifies this`currentVideoId, this`loading, this`buttons, this`log
      ensures Valid()
      ensures log == old(log) + LookupTrace(Trim(input), outcome)
      ensures !LookupSucceeds(Trim(input), outcome) ==>
                currentVideoId == old(currentVideoId) && buttons == old(buttons)
      ensures LookupSucceeds(Trim(input), outcome) ==>
                currentVideoId == ExtractVideoId(Trim(input))
                && currentVideoId == MatchHost(SkipWww(SkipScheme(Trim(input))))
                && buttons == ButtonOrder(outcome.reply.formats)
    {
      var url := Trim(input);
      if url == [] {
        log := log + [Alert(EmptyUrlMessage)];
        return;
      }
      if !IsValidYouTubeUrl(url) {
        log := log + [Alert(InvalidUrlMessage)];
        return;
      }
      Lookup(url, outcome);
    }

    /** The part of `fetchVideoInfo` after both guards have passed (script.js:37-60). */
    method Lookup(url: string, outcome: FetchOutcome)
      requires Valid() && LookupSends(url)
      modifies this`currentVideoId, this`loading, this`buttons, this`log
      ensures Valid()
      ensures log == old(log) + [Loading(true), Sent(VideoInfoRequest(url))] + OutcomeEvents(outcome) + [Loading(false)]
      ensures !(outcome.Replied? && outcome.reply.InfoSuccess?) ==>
                currentVideoId == old(currentVideoId) && buttons == old(buttons)
      ensures outcome.Replied? && outcome.reply.InfoSuccess? ==>
                currentVideoId == ExtractVideoId(url)
                && currentVideoId == MatchHost(SkipWww(SkipScheme(url)))
                && buttons == ButtonOrder(outcome.reply.formats)
    {
      loading := true;
      log := log + [Loading(true), Sent(VideoInfoRequest(url))];
      ghost var sent := log;
      match outcome {
        case Replied(InfoSuccess(meta, formats)) =>
          log := log + [PreviewShown(meta, FormatDate(meta.uploadDate))];
          GenerateDownloadOptions(formats);
          ValidImpliesExtract(url);
          currentVideoId := ExtractVideoId(url);
        case Replied(InfoFailure(e)) =>
          log := log + [Alert(if Truthy(e) then e.value else FetchFailedMessage)];
        case FetchThrown =>
          log := log + [Alert(NetworkMessage)];
      }
      assert log == sent + OutcomeEvents(outcome);
      loading := false;
      log := log + [Loading(false)];
    }

    /** `generateDownloadOptions` (script.js:95-114): clears the grid, then appends one button per
        video format and one per audio format. */
    method GenerateDownloadOptions(formats: seq<FormatEntry>)
      modifies this`buttons
      ensures buttons == ButtonOrder(formats)
    {
      var videoFormats := OfKind(formats, "video");
      var audioFormats := OfKind(formats, "audio");
      buttons := [];
      for i := 0 to |videoFormats|
        invariant buttons == videoFormats[..i]
      {
        buttons := buttons + [videoFormats[i]];
      }
      for i := 0 to |audioFormats|
        invariant buttons == videoFormats + audioFormats[..i]
      {
        buttons := buttons + [audioFormats[i]];
      }
    }

    /** `startDownload` (script.js:131-160) for the button of `formatId`: without a session id nothing
        happens; otherwise the current input text is sent with the stored id, and a new interval
        starts unless the request throws, whatever the reply says. Earlier intervals are left running. */
    method StartDownload(formatId: string, input: string, outcome: StartOutcome)
      requires Valid()
      modifies this`intervals, this`log
      ensures Valid()
      ensures currentVideoId.None? ==> intervals == old(intervals) && log == old(log)
      ensures currentVideoId.Some? ==>
                log == old(log) + [ProgressSectionShown, Sent(DownloadRequest(Trim(input), formatId, currentVideoId.value))]
                                + (if outcome.StartThrown? then [Alert(StartFailedMessage)] else [])
      ensures currentVideoId.Some? ==>
                intervals == old(intervals) + (if outcome.StartThrown? then [] else [true])
    {
      if currentVideoId.None? {
        return;
      }
      var url := Trim(input);
      log := log + [ProgressSectionShown, Sent(DownloadRequest(url, formatId, currentVideoId.value))];
      match outcome {
        case StartReplied =>
          intervals := intervals + [true];
        case StartThrown =>
          log := log + [Alert(StartFailedMessage)];
      }
    }

    /** One firing of interval `k` (script.js:169-204). A cleared interval no longer fires. A live
        one asks for the progress of the id in the session now, not the id it was started with, and
        is cleared exactly when `Decide` says to stop; no other interval is touched. */
    method Tick(k: nat, outcome: PollOutcome)
      requires Valid() && k < |intervals|
      modifies this`intervals, this`log
      ensures Valid() && |intervals| == |old(intervals)|
      ensures !old(intervals[k]) ==> intervals == old(intervals) && log == old(log)
      ensures old(intervals[k]) ==>
                intervals == old(intervals)[k := !Stops(Decide(outcome))]
                && log == old(log) + [Sent(ProgressRequest(currentVideoId.value))] + TickEvents(Decide(outcome))
    {
      if !intervals[k] {
        return;
      }
      log := log + [Sent(ProgressRequest(currentVideoId.value))];
      match outcome {
        case PollThrown =>
        case PollReplied(body) =>
          if Truthy(body.error) {
            log := log + [Alert(body.error.value)];
            intervals := intervals[k := false];
            return;
          }
          if body.percent.Some? {
            var percent := body.percent.value;
            var speed := if TruthyNumber(body.speed) then body.speed else None;
            var eta := if TruthyInt(body.eta) then Some(FormatTime(body.eta.value)) else None;
            log := log + [ProgressShown(percent, if percent == 100.0 then CompleteStatus else DownloadingStatus, speed, eta)];
            if percent == 100.0 {
              intervals := intervals[k := false];
              log := log + [HideScheduled];
            }
          }
      }
    }
  }
}

=== FILE: display_format.dfy ===
/** The two display formatters of `TubeFetch` whose logic is integer and string work:
    `formatTime` (script.js:248-260) and `formatDate` (script.js:262-269). */
module DisplayFormat {
  import opened Text

  /** JavaScript's `%` on integers: truncates toward zero, so the remainder takes the dividend's sign. */
  function JsRem(a: int, b: int): (r: int)
    requires b > 0
    ensures a >= 0 ==> 0 <= r < b
    ensures a >= 0 ==> r == a % b
    ensures a < 0 ==> -b < r <= 0
    ensures (a - r) % b == 0
  {
    var n := if a >= 0 then a else -a;
    assert n == b * (n / b) + n % b;
    var r := if a >= 0 then n % b else -(n % b);
    assert a - r == (if a >= 0 then n / b else -(n / b)) * b;
    MultipleRem(if a >= 0 then n / b else -(n / b), b);
    r
  }

  /** A multiple of `b` leaves no remainder. */
  lemma MultipleRem(q: int, b: int)
    requires b > 0
    ensures (q * b) % b == 0
  {
    var x := q * b;
    var k := q - x / b;
    assert x % b == k * b by {
      assert x == b * (x / b) + x % b;
    }
  }

  // `Math.floor(x / d)` for a positive divisor is Dafny's `/`, which rounds down for every dividend.
  function Hours(seconds: int): int { seconds / 3600 }
  function Minutes(seconds: int): int { JsRem(seconds, 3600) / 60 }
  function Secs(seconds: int): int { JsRem(seconds, 60) }

  /** `formatTime`: `"{h}h {m}m {s}s"`, leaving out the hours when they are zero and the minutes
      when hours and minutes are both zero. */
  function FormatTime(seconds: int): (r: string)
    ensures |r| >= 2 && r[|r| - 1] == 's'
  {
    var h, m, s := Hours(seconds), Minutes(seconds), Secs(seconds);
    if h > 0 then Decimal(h) + "h " + Decimal(m) + "m " + Decimal(s) + "s"
    else if m > 0 then Decimal(m) + "m " + Decimal(s) + "s"
    else Decimal(s) + "s"
  }

  /** For a non-negative count of seconds the three parts are the mixed-radix digits of it. */
  lemma TimeParts(seconds: int)
    requires seconds >= 0
    ensures Hours(seconds) * 3600 + Minutes(seconds) * 60 + Secs(seconds) == seconds
    ensures Hours(seconds) >= 0 && 0 <= Minutes(seconds) < 60 && 0 <= Secs(seconds) < 60
  {
    var h, r := seconds / 3600, seconds % 3600;
    var m, s := r / 60, r % 60;
    assert seconds == h * 3600 + m * 60 + s;
    assert seconds == (h * 60 + m) * 60 + s;
    assert seconds % 60 == s;
  }

  // A reader for the duration strings `formatTime` writes: digits accumulate a number, and a
  // unit letter adds that number, weighted, to the total. It plays no part in the browser; it is
  // here to show that `formatTime` loses nothing for non-negative input.
  datatype Reading = Reading(total: int, current: int)

  function ReadChar(st: Reading, c: char): Reading {
    if IsDigit(c) then Reading(st.total, st.current * 10 + (c as int - '0' as int))
    else if c == 'h' then Reading(st.total + st.current * 3600, 0)
    else if c == 'm' then Reading(st.total + st.current * 60, 0)
    else if c == 's' then Reading(st.total + st.current, 0)
    else st
  }

  function Read(st: Reading, t: string): Reading
    decreases |t|
  {
    if t == [] then st else Read(ReadChar(st, t[0]), t[1..])
  }

  function DurationValue(t: string): int {
    Read(Reading(0, 0), t).total
  }

  lemma {:induction false} ReadConcat(st: Reading, a: string, b: string)
    ensures Read(st, a + b) == Read(Read(st, a), b)
    decreases |a|
  {
    if a == [] {
      assert a + b == b;
    } else {
      assert (a + b)[0] == a[0] && (a + b)[1..] == a[1..] + b;
      ReadConcat(ReadChar(st, a[0]), a[1..], b);
    }
  }

  /** Reading a numeral from a cleared accumulator yields its value. */
  lemma {:induction false} ReadNumeral(total: int, n: nat)
    ensures Read(Reading(total, 0), NatDecimal(n)) == Reading(total, n)
    decreases n
  {
    if n < 10 {
      assert Read(Reading(total, 0), NatDecimal(n)) == Read(ReadChar(Reading(total, 0), DigitChar(n)), []);
    } else {
      ReadNumeral(total, n / 10);
      ReadConcat(Reading(total, 0), NatDecimal(n / 10), [DigitChar(n % 10)]);
      assert Read(Reading(total, n / 10), [DigitChar(n % 10)])
          == Read(ReadChar(Reading(total, n / 10), DigitChar(n % 10)), []);
    }
  }

  /** A numeral followed by a unit letter and anything without digits adds the weighted value. */
  lemma ReadField(total: int, n: nat, unit: string, weight: int)
    requires (unit == "h " && weight == 3600) || (unit == "m " && weight == 60) || (unit == "s" && weight == 1)
    ensures Read(Reading(total, 0), NatDecimal(n) + unit) == Reading(total + n * weight, 0)
  {
    ReadNumeral(total, n);
    ReadConcat(Reading(total, 0), NatDecimal(n), unit);
    var afterUnit := ReadChar(Reading(total, n), unit[0]);
    assert afterUnit == Reading(total + n * weight, 0);
    assert Read(Reading(total, n), unit) == Read(afterUnit, unit[1..]);
    if |unit| == 2 {
      assert Read(afterUnit, unit[1..]) == Read(ReadChar(afterUnit, ' '), []);
    }
  }

  /** Reading back what `formatTime` writes gives the number of seconds: the omitted parts are
      exactly the zero ones. */
  lemma FormatTimeRoundTrip(seconds: int)
    requires seconds >= 0
    ensures DurationValue(FormatTime(seconds)) == seconds
  {
    TimeParts(seconds);
    var h, m, s := Hours(seconds), Minutes(seconds), Secs(seconds);
    if h > 0 {
      assert FormatTime(seconds) == NatDecimal(h) + "h " + (NatDecimal(m) + "m " + (NatDecimal(s) + "s"));
      ReadHours(h, m, s);
    } else if m > 0 {
      assert FormatTime(seconds) == NatDecimal(m) + "m " + (NatDecimal(s) + "s");
      ReadMinutesFrom(0, m, s);
    } else {
      assert FormatTime(seconds) == NatDecimal(s) + "s";
      ReadField(0, s, "s", 1);
    }
  }

  /** Reading `{h}h {m}m {s}s` gives the weighted sum of the three numerals. */
  lemma ReadHours(h: nat, m: nat, s: nat)
    ensures Read(Reading(0, 0), NatDecimal(h) + "h " + (NatDecimal(m) + "m " + (NatDecimal(s) + "s")))
              == Reading(h * 3600 + m * 60 + s, 0)
  {
    var fh, rest := NatDecimal(h) + "h ", NatDecimal(m) + "m " + (NatDecimal(s) + "s");
    ReadConcat(Reading(0, 0), fh, rest);
    ReadField(0, h, "h ", 3600);
    ReadMinutesFrom(h * 3600, m, s);
  }

  /** Reading `{m}m {s}s` adds the weighted sum of the two numerals to the running total. */
  lemma ReadMinutesFrom(total: int, m: nat, s: nat)
    ensures Read(Reading(total, 0), NatDecimal(m) + "m " + (NatDecimal(s) + "s"))
              == Reading(total + m * 60 + s, 0)
  {
    var fm, fs := NatDecimal(m) + "m ", NatDecimal(s) + "s";
    ReadConcat(Reading(total, 0), fm, fs);
    ReadField(total, m, "m ", 60);
    ReadField(total + m * 60, s, "s", 1);
  }

  /** Hours appear exactly from one hour on, minutes exactly from one minute on. */
  lemma FormatTimeUnits(seconds: int)
    requires seconds >= 0
    ensures 'h' in FormatTime(seconds) <==> seconds >= 3600
    ensures 'm' in FormatTime(seconds) <==> seconds >= 60
  {
    TimeParts(seconds);
    var h, m, s := Hours(seconds), Minutes(seconds), Secs(seconds);
    var dh, dm, ds := NatDecimal(h), NatDecimal(m), NatDecimal(s);
    assert 'h' !in dh && 'h' !in dm && 'h' !in ds && 'm' !in dh && 'm' !in dm && 'm' !in ds;
    if h > 0 {
      assert FormatTime(seconds) == dh + "h " + dm + "m " + ds + "s";
    } else if m > 0 {
      assert FormatTime(seconds) == dm + "m " + ds + "s";
    } else {
      assert FormatTime(seconds) == ds + "s";
    }
  }

  /** `formatDate`: `'Unknown date'` for a falsy argument (absent, null or empty is the empty string
      here), otherwise `substring(0,4)-substring(4,6)-substring(6,8)`. */
  function FormatDate(date: string): (r: string)
    ensures date == [] ==> r == "Unknown date"
    ensures date != [] ==>
              var y, m := Min(|date|, 4), Min(|date|, 6);
              |r| == Min(|date|, 8) + 2 && r[y] == '-' && r[m + 1] == '-'
              && r[..y] + r[y + 1..m + 1] + r[m + 2..] == date[..Min(|date|, 8)]
    ensures |date| >= 8 ==> r[4] == '-' && r[7] == '-' && DateDigits(r) == date[..8]
  {
    if date == [] then "Unknown date"
    else
      var year, month, day := Substring(date, 0, 4), Substring(date, 4, 6), Substring(date, 6, 8);
      var y, m, d := Min(|date|, 4), Min(|date|, 6), Min(|date|, 8);
      assert year == date[..y] && month == date[y..m] && day == date[m..d];
      DashJoin(year, month, day);
      assert date[..d] == year + month + day;
      year + "-" + month + "-" + day
  }

  /** Three parts joined by two dashes: the dashes sit after the first and after the second part,
      and removing them gives the parts back. */
  lemma DashJoin(a: string, b: string, c: string)
    ensures var r, i, j := a + "-" + b + "-" + c, |a|, |a| + |b| + 1;
              |r| == |a| + |b| + |c| + 2 && r[i] == '-' && r[j] == '-'
              && r[..i] + r[i + 1..j] + r[j + 1..] == a + b + c
  {
    var front := a + "-" + b;
    var r := front + "-" + c;
    assert |front| == |a| + |b| + 1 && front[..|a|] == a && front[|a| + 1..] == b;
    assert r[..|front|] == front && r[|front| + 1..] == c;
    assert r[..|a|] == a && r[|a| + 1..|front|] == b;
  }

  /** Removes the two separators of a `YYYY-MM-DD` string: the inverse of `FormatDate` on tokens
      of eight or more characters. */
  function DateDigits(r: string): string
    requires |r| == 10
  {
    r[..4] + r[5..7] + r[8..]
  }
}

=== FILE: interplay.dfy ===
/** How the two halves fit together: what the client's tick decides on the bodies the backend's
    progress table produces, and what the client shows for the catalogue the backend sends. */
module Interplay {
  import opened Wrappers
  import opened Text
  import opened YouTubeUrl
  import opened Protocol
  import opened Catalog
  import opened Backend
  import opened Controller

  /** Once the hook has seen the finished event, the next tick shows 100% as complete, without
      speed or eta (the hook writes zeros, which are falsy), and ends polling. */
  lemma FinishedEndsPolling(d: HookEvent)
    requires d.status == "finished"
    ensures Decide(PollReplied(BodyOf(HookEntry(d).value))) == Update(100.0, None, None, true)
    ensures TickEvents(Decide(PollReplied(BodyOf(HookEntry(d).value))))
              == [ProgressShown(100.0, CompleteStatus, None, None), HideScheduled]
  {
  }

  /** A downloading event ends polling exactly when the bytes downloaded are within half a
      thousandth of the total: the hook rounds to a tenth of a percent, so between 99.95% and
      100.05% the client reads 100, shows the download as complete and stops polling. */
  lemma DownloadingStopsNearComplete(d: HookEvent)
    requires d.status == "downloading" && Total(d) > 0
    ensures Stops(Decide(PollReplied(BodyOf(HookEntry(d).value)))) <==>
              (1999 * Total(d) <= 2000 * Downloaded(d) && 2000 * Downloaded(d) <= 2001 * Total(d))
  {
    assert HookEntry(d).value.percent == RoundTenth(Fraction(d));
    RoundTenthHundred(Fraction(d));
    NearHundred(Downloaded(d), Total(d));
  }

  /** `n` out of `t` is within half a tenth of 100 percent exactly when `n / t` lies between
      0.9995 and 1.0005. */
  lemma NearHundred(n: int, t: int)
    requires t > 0
    ensures 99.95 <= (n as real / t as real) * 100.0 <= 100.05 <==> 1999 * t <= 2000 * n <= 2001 * t
  {
    var tr, nr := t as real, n as real;
    var q := nr / tr;
    assert q * tr == nr;
    var p := q * 100.0;
    assert p * tr == 100.0 * nr by {
      assert p * tr == 100.0 * (q * tr);
    }
    AtLeastLower(p, tr, nr);
    AtMostUpper(p, tr, nr);
  }

  lemma AtLeastLower(p: real, t: real, n: real)
    requires t > 0.0 && p * t == 100.0 * n
    ensures 99.95 <= p <==> 1999.0 * t <= 2000.0 * n
  {
    ScaleLe(99.95, p, 20.0 * t);
    assert p * (20.0 * t) == 20.0 * (p * t);
  }

  lemma AtMostUpper(p: real, t: real, n: real)
    requires t > 0.0 && p * t == 100.0 * n
    ensures p <= 100.05 <==> 2000.0 * n <= 2001.0 * t
  {
    ScaleLe(p, 100.05, 20.0 * t);
    assert p * (20.0 * t) == 20.0 * (p * t);
  }

  lemma ScaleLe(a: real, b: real, c: real)
    requires c > 0.0
    ensures a <= b <==> a * c <= b * c
  {
    assert b * c - a * c == (b - a) * c;
  }

  /** A failure entry is reported and ends polling, except when its text is empty: an empty error
      string is falsy, so the client keeps polling and never shows anything. */
  lemma FailureEndsPollingUnlessEmpty(m: string)
    ensures Decide(PollReplied(BodyOf(Failed(m)))) == if m != "" then ReportError(m) else KeepPolling
  {
  }

  /** Until the hook first writes, the progress route answers `{}` and the tick does nothing. */
  lemma NoEntryKeepsPolling(server: Server, videoId: string)
    requires videoId !in server.progress
    ensures Decide(PollReplied(server.ProgressOf(videoId))) == KeepPolling
  {
  }

  /** The download route never resets the table, so a completed entry left by an earlier download
      of the same video ends the polling of a new download at its first tick, as long as the new
      download's hook has not yet overwritten it. */
  lemma StaleCompletionEndsNewPoll(server: Server, videoId: string)
    requires videoId in server.progress && server.progress[videoId] == Status(100.0, 0.0, 0)
    ensures Stops(Decide(PollReplied(server.ProgressOf(videoId))))
    ensures TickEvents(Decide(PollReplied(server.ProgressOf(videoId))))
              == [ProgressShown(100.0, CompleteStatus, None, None), HideScheduled]
  {
  }

  /** Every format of a successful catalogue gets exactly one button, since the backend only ever
      labels a format video or audio. */
  lemma EveryCatalogFormatGetsAButton(formats: seq<RawFormat>)
    requires CatalogOf(formats).Success?
    ensures multiset(ButtonOrder(CatalogOf(formats).value)) == multiset(CatalogOf(formats).value)
    ensures |ButtonOrder(CatalogOf(formats).value)| == |Kept(formats)|
  {
    var fs := CatalogOf(formats).value;
    forall x ensures multiset(ButtonOrder(fs))[x] == multiset(fs)[x] {
      ButtonsPartition(fs, x);
    }
    assert multiset(ButtonOrder(fs)) == multiset(fs);
    assert |ButtonOrder(fs)| == |multiset(ButtonOrder(fs))|;
  }

  /** A share link with a tracking parameter is accepted and yields the id before the parameter. */
  lemma ShareLinkAccepted()
    ensures IsValidYouTubeUrl("https://youtu.be/dQw4w9WgXcQ?si=abc")
    ensures ExtractVideoId("https://youtu.be/dQw4w9WgXcQ?si=abc") == Some("dQw4w9WgXcQ")
  {
    var id := "dQw4w9WgXcQ";
    assert IsVideoId(id);
    assert Lead(2, 0, 1) == "https://youtu.be/";
    assert "https://youtu.be/dQw4w9WgXcQ?si=abc" == Lead(2, 0, 1) + id + "?si=abc";
    TrailingTextIgnored(2, 0, 1, id, "?si=abc");
  }

  /** A second download of a video whose first download finished: the hook of the first left a
      completed entry, the route starts the new thread without touching it, and so, if the tick
      comes before the new thread's hook writes, it already reads 100 and stops. */
  method RepeatDownload(videoId: string)
    requires videoId != ""
  {
    var server := new Server();
    var hook := new DownloadProgressHook(videoId, server);
    hook.Hook(HookEvent("finished", None, None, None, None, None));
    var reply := server.Download(Some("https://youtu.be/" + videoId), Some("18"), Some(videoId));
    assert reply == Started("Download started");
    StaleCompletionEndsNewPoll(server, videoId);
  }

  /** The input box cleared after a lookup: the client still sends the request and, since the call
      itself does not throw, starts polling; the backend refuses the request for its empty url, so
      when the table holds no entry for the video and no earlier download of it is still running,
      no entry is ever written and the new interval survives every tick. */
  method ClearedInputPollsForever(client: TubeFetch, server: Server, formatId: string)
    requires client.Valid() && client.currentVideoId.Some? && client.currentVideoId.value !in server.progress
    requires forall j <- server.jobs :: j.videoId != client.currentVideoId.value
    modifies client, server
  {
    var videoId := client.currentVideoId.value;
    client.StartDownload(formatId, " ", StartReplied);
    TrimSpec(" ");
    var reply := server.Download(Some(Trim(" ")), Some(formatId), Some(videoId));
    assert reply == Refused("Missing parameters");
    var k := |client.intervals| - 1;
    NoEntryKeepsPolling(server, videoId);
    client.Tick(k, PollReplied(server.ProgressOf(videoId)));
    assert client.intervals[k];
  }
}

=== FILE: protocol.dfy ===
/** The JSON bodies the browser and the Flask backend exchange, with JavaScript truthiness. */
module Protocol {
  import opened Wrappers

  /** One element of the `formats` list of a `/api/video-info` reply. */
  datatype FormatEntry = FormatEntry(formatId: string, quality: string, kind: string, filesize: int, ext: string)

  datatype VideoMeta = VideoMeta(
    title: string, thumbnail: string, duration: string, channel: string, viewCount: int, uploadDate: string)

  /** The body of a `/api/video-info` reply: `success: true` with the metadata and formats, or a
      falsy `success` with an optional `error` message. */
  datatype InfoReply = InfoSuccess(meta: VideoMeta, formats: seq<FormatEntry>) | InfoFailure(error: Option<string>)

  /** The body of a `/api/progress/<video_id>` reply: an object each of whose keys may be absent. */
  datatype ProgressBody = ProgressBody(error: Option<string>, percent: Option<real>, speed: Option<real>, eta: Option<int>)

  /** `{}` */
  const EmptyBody := ProgressBody(None, None, None, None)

  /** A string value is truthy when it is present and non-empty. */
  predicate Truthy(s: Option<string>) {
    s.Some? && s.value != ""
  }

  /** A numeric value is truthy when it is present and non-zero. */
  predicate TruthyNumber(x: Option<real>) {
    x.Some? && x.value != 0.0
  }

  predicate TruthyInt(x: Option<int>) {
    x.Some? && x.value != 0
  }
}

=== FILE: seqs.dfy ===
/** Order-preserving selection from a sequence, as JavaScript's `Array.prototype.filter`
    and a Python `for` loop with a guarded `append` both do. */
module Seqs {

  function Filter<T>(s: seq<T>, keep: T -> bool): (r: seq<T>)
    ensures |r| <= |s|
    ensures forall i | 0 <= i < |r| :: keep(r[i])
  {
    if s == [] then []
    else (if keep(s[0]) then [s[0]] else []) + Filter(s[1..], keep)
  }

  /** Filtering distributes over concatenation: the kept elements stay in input order. */
  lemma {:induction false} FilterConcat<T>(a: seq<T>, b: seq<T>, keep: T -> bool)
    ensures Filter(a + b, keep) == Filter(a, keep) + Filter(b, keep)
  {
    if a == [] {
      assert a + b == b;
    } else {
      assert (a + b)[0] == a[0];
      assert (a + b)[1..] == a[1..] + b;
      FilterConcat(a[1..], b, keep);
    }
  }

  /** Appending one element: it is kept exactly when `keep` holds of it. */
  lemma FilterSnoc<T>(a: seq<T>, x: T, keep: T -> bool)
    ensures Filter(a + [x], keep) == Filter(a, keep) + (if keep(x) then [x] else [])
  {
    FilterConcat(a, [x], keep);
    assert Filter([x], keep) == (if keep(x) then [x] else []) + Filter([x][1..], keep);
  }

  /** Each element occurs in the result as often as in the input when it is kept, else not at all. */
  lemma {:induction false} FilterCount<T>(s: seq<T>, keep: T -> bool, x: T)
    ensures multiset(Filter(s, keep))[x] == if keep(x) then multiset(s)[x] else 0
  {
    if s != [] {
      assert s == [s[0]] + s[1..];
      FilterCount(s[1..], keep, x);
      assert multiset(s) == multiset([s[0]]) + multiset(s[1..]);
    }
  }

  /** An element is in the result exactly when it is in the input and kept. */
  lemma FilterMember<T>(s: seq<T>, keep: T -> bool, x: T)
    ensures x in Filter(s, keep) <==> x in s && keep(x)
  {
    FilterCount(s, keep, x);
  }
}

=== FILE: text.dfy ===
/** String helpers of the browser runtime: `String.prototype.trim`, `String.prototype.substring`
    and the rendering of an integer inside a template literal. */
module Text {

  /** The characters `trim` removes: ECMAScript WhiteSpace and LineTerminator code points. */
  predicate IsJsWhitespace(c: char) {
    || c == '\t' || c == '\n' || c == '\U{000B}' || c == '\U{000C}' || c == '\r' || c == ' '
    || c == '\U{00A0}' || c == '\U{1680}' || ('\U{2000}' <= c <= '\U{200A}')
    || c == '\U{2028}' || c == '\U{2029}' || c == '\U{202F}' || c == '\U{205F}'
    || c == '\U{3000}' || c == '\U{FEFF}'
  }

  predicate AllWhitespace(s: string) {
    forall i | 0 <= i < |s| :: IsJsWhitespace(s[i])
  }

  /** Drops leading whitespace (`trimStart`). */
  function TrimStart(s: string): (r: string)
    ensures |r| <= |s|
  {
    if s != [] && IsJsWhitespace(s[0]) then TrimStart(s[1..]) else s
  }

  /** Drops trailing whitespace (`trimEnd`). */
  function TrimEnd(s: string): (r: string)
    ensures |r| <= |s|
  {
    if s != [] && IsJsWhitespace(s[|s| - 1]) then TrimEnd(s[..|s| - 1]) else s
  }

  /** What `trimStart` keeps is a suffix of its input, what it drops is all whitespace, and what it
      keeps does not begin with whitespace. */
  lemma {:induction false} TrimStartSpec(s: string)
    ensures s[..|s| - |TrimStart(s)|] + TrimStart(s) == s
    ensures AllWhitespace(s[..|s| - |TrimStart(s)|])
    ensures TrimStart(s) == [] || !IsJsWhitespace(TrimStart(s)[0])
    decreases |s|
  {
    if s != [] && IsJsWhitespace(s[0]) {
      var t := s[1..];
      var r := TrimStart(t);
      TrimStartSpec(t);
      var k := |t| - |r|;
      assert TrimStart(s) == r && |s| - |r| == k + 1;
      var dropped := s[..k + 1];
      assert dropped == [s[0]] + t[..k];
      forall i | 0 <= i < |dropped| ensures IsJsWhitespace(dropped[i]) {
        if i > 0 { assert dropped[i] == t[..k][i - 1]; }
      }
      assert dropped + r == [s[0]] + (t[..k] + r);
      assert s == [s[0]] + t;
    }
  }

  /** What `trimEnd` keeps is a prefix of its input, what it drops is all whitespace, and what it
      keeps does not end with whitespace. */
  lemma {:induction false} TrimEndSpec(s: string)
    ensures TrimEnd(s) + s[|TrimEnd(s)|..] == s
    ensures AllWhitespace(s[|TrimEnd(s)|..])
    ensures TrimEnd(s) == [] || !IsJsWhitespace(TrimEnd(s)[|TrimEnd(s)| - 1])
    decreases |s|
  {
    if s != [] && IsJsWhitespace(s[|s| - 1]) {
      var t := s[..|s| - 1];
      var r := TrimEnd(t);
      TrimEndSpec(t);
      assert TrimEnd(s) == r;
      var dropped := s[|r|..];
      assert dropped == t[|r|..] + [s[|s| - 1]];
      forall i | 0 <= i < |dropped| ensures IsJsWhitespace(dropped[i]) {
        if i < |dropped| - 1 { assert dropped[i] == t[|r|..][i]; }
      }
      assert r + dropped == (r + t[|r|..]) + [s[|s| - 1]];
      assert s == t + [s[|s| - 1]];
    }
  }

  lemma AllWhitespaceConcat(a: string, b: string)
    requires AllWhitespace(a) && AllWhitespace(b)
    ensures AllWhitespace(a + b)
  {
    forall i | 0 <= i < |a + b| ensures IsJsWhitespace((a + b)[i]) {
      if i < |a| { assert (a + b)[i] == a[i]; } else { assert (a + b)[i] == b[i - |a|]; }
    }
  }

  lemma {:induction false} TrimEndAllWhitespace(s: string)
    requires AllWhitespace(s)
    ensures TrimEnd(s) == []
    decreases |s|
  {
    if s != [] {
      assert IsJsWhitespace(s[|s| - 1]);
      TrimEndAllWhitespace(s[..|s| - 1]);
    }
  }

  /** `String.prototype.trim`: both ends' whitespace removed. */
  function Trim(s: string): (r: string)
    ensures |r| <= |s|
  {
    TrimStart(TrimEnd(s))
  }

  /** `trim` yields the empty string exactly for all-whitespace input; otherwise its result neither
      begins nor ends with whitespace. */
  lemma TrimSpec(s: string)
    ensures Trim(s) == [] <==> AllWhitespace(s)
    ensures Trim(s) != [] ==> !IsJsWhitespace(Trim(s)[0]) && !IsJsWhitespace(Trim(s)[|Trim(s)| - 1])
  {
    var e := TrimEnd(s);
    var r := TrimStart(e);
    TrimEndSpec(s);
    TrimStartSpec(e);
    if r == [] {
      assert e == e[..|e|];
      AllWhitespaceConcat(e, s[|e|..]);
    }
    if AllWhitespace(s) {
      TrimEndAllWhitespace(s);
    }
    if r != [] {
      assert r[|r| - 1] == e[|e| - 1];
    }
  }

  /** What `trim` keeps is one slice of its input, and only whitespace lies around it. */
  lemma TrimSlice(s: string) returns (i: nat)
    ensures i + |Trim(s)| <= |s| && Trim(s) == s[i..i + |Trim(s)|]
    ensures AllWhitespace(s[..i]) && AllWhitespace(s[i + |Trim(s)|..])
  {
    var e := TrimEnd(s);
    var r := TrimStart(e);
    TrimEndSpec(s);
    TrimStartSpec(e);
    assert Trim(s) == r;
    i := |e| - |r|;
    assert e == e[..i] + r;
    assert s == e + s[|e|..];
    assert s[..i] == e[..i];
    assert s[i + |r|..] == s[|e|..];
  }

  /** JavaScript's `substring(start, end)` for `start <= end`: both bounds are clamped to the length. */
  function Substring(s: string, start: nat, end: nat): (r: string)
    requires start <= end
    ensures |s| >= end ==> r == s[start..end]
    ensures start <= |s| <= end ==> r == s[start..]
    ensures |s| <= start ==> r == []
  {
    s[Min(start, |s|)..Min(end, |s|)]
  }

  function Min(a: int, b: int): int { if a <= b then a else b }

  predicate IsDigit(c: char) { '0' <= c <= '9' }

  function DigitChar(d: int): (c: char)
    requires 0 <= d < 10
    ensures IsDigit(c) && c as int - '0' as int == d
  {
    ('0' as int + d) as char
  }

  /** The decimal numeral of a natural number: digits only, no leading zero. */
  function NatDecimal(n: nat): (r: string)
    ensures |r| >= 1 && (r[0] == '0' ==> n == 0)
    ensures forall i | 0 <= i < |r| :: IsDigit(r[i])
  {
    if n < 10 then [DigitChar(n)] else NatDecimal(n / 10) + [DigitChar(n % 10)]
  }

  /** How a JavaScript integer number appears inside a template literal: a minus sign exactly for
      negative numbers, then digits. */
  function Decimal(n: int): (r: string)
    ensures |r| >= 1 && (r[0] == '-' <==> n < 0)
    ensures forall i | (if n < 0 then 1 else 0) <= i < |r| :: IsDigit(r[i])
  {
    if n < 0 then "-" + NatDecimal(-n) else NatDecimal(n)
  }

  /** The value of a string of digits, most significant first. */
  function DigitsValue(t: string): int
    decreases |t|
  {
    if t == [] then 0 else DigitsValue(t[..|t| - 1]) * 10 + (t[|t| - 1] as int - '0' as int)
  }

  /** The value of a numeral with an optional leading minus sign. */
  function SignedValue(t: string): int {
    if t != [] && t[0] == '-' then -DigitsValue(t[1..]) else DigitsValue(t)
  }

  /** A natural number's numeral reads back as the number. */
  lemma {:induction false} NatDecimalValue(n: nat)
    ensures DigitsValue(NatDecimal(n)) == n
    decreases n
  {
    var t := NatDecimal(n);
    if n < 10 {
      assert t[..|t| - 1] == [];
    } else {
      NatDecimalValue(n / 10);
      assert t[..|t| - 1] == NatDecimal(n / 10);
    }
  }

  /** What a template literal shows for an integer reads back as that integer. */
  lemma DecimalRoundTrip(n: int)
    ensures SignedValue(Decimal(n)) == n
  {
    if n < 0 {
      NatDecimalValue(-n);
      assert Decimal(n)[1..] == NatDecimal(-n);
    } else {
      NatDecimalValue(n);
    }
  }
}

=== FILE: wrappers.dfy ===
/** Option and Result, used for JavaScript's `null`/`undefined` and for Python's exceptions. */
module Wrappers {

  /** `None` stands for a missing key, `null` or `undefined`. */
  datatype Option<+T> = None | Some(value: T) {
    function GetOr(default: T): T {
      match this
      case Some(v) => v
      case None => default
    }
  }

  /** The outcome of a computation that may raise. */
  datatype Result<+R, +E> = Success(value: R) | Failure(error: E)
}

=== FILE: youtube_url.dfy ===
/** The two regular expressions of `TubeFetch` (script.js): `isValidYouTubeUrl`, anchored at the start
    of the input, and `extractVideoId`, which takes the leftmost match anywhere in the input.
    Both are case-sensitive and neither looks past the eleventh id character. */
module YouTubeUrl {
  import opened Wrappers

  /** `[a-zA-Z0-9_-]` */
  predicate IsIdChar(c: char) {
    ('a' <= c <= 'z') || ('A' <= c <= 'Z') || ('0' <= c <= '9') || c == '_' || c == '-'
  }

  /** `[a-zA-Z0-9_-]{11}`, matched exactly. */
  predicate IsVideoId(id: string) {
    |id| == 11 && forall i | 0 <= i < |id| :: IsIdChar(id[i])
  }

  const LongHost: string := "youtube.com/watch?v="
  const ShortHost: string := "youtu.be/"

  /** `s` begins with `lead` followed by eleven id characters (anything may follow them). */
  predicate IdFollows(s: string, lead: string) {
    lead <= s && |s| >= |lead| + 11 && IsVideoId(s[|lead|..|lead| + 11])
  }

  /** `(youtube\.com\/watch\?v=|youtu\.be\/)([a-zA-Z0-9_-]{11})` tried at the start of `s`;
      the result is the captured id. The two hosts differ at their sixth character, so at most
      one alternative can match. */
  function MatchHost(s: string): (r: Option<string>)
    ensures r.Some? ==> IsVideoId(r.value)
  {
    if IdFollows(s, LongHost) then Some(s[20..31])
    else if IdFollows(s, ShortHost) then Some(s[9..20])
    else None
  }

  /** Both hosts begin with `y`, and they differ at their sixth character, so at most one
      alternative can match at a position. */
  lemma MatchHostCases(s: string)
    ensures MatchHost(s).Some? <==> IdFollows(s, LongHost) || IdFollows(s, ShortHost)
    ensures MatchHost(s).Some? ==> s[0] == 'y'
    ensures IdFollows(s, LongHost) ==> MatchHost(s) == Some(s[20..31])
    ensures IdFollows(s, ShortHost) ==> MatchHost(s) == Some(s[9..20])
  {
    if IdFollows(s, LongHost) {
      assert s[0] == LongHost[0];
      assert s[5] == LongHost[5] != ShortHost[5];
    }
    if IdFollows(s, ShortHost) {
      assert s[0] == ShortHost[0];
    }
  }

  /** `(https?:\/\/)?` */
  function SkipScheme(s: string): string {
    if "https://" <= s then s[8..] else if "http://" <= s then s[7..] else s
  }

  /** `(www\.)?` */
  function SkipWww(s: string): string {
    if "www." <= s then s[4..] else s
  }

  /** `isValidYouTubeUrl` (script.js:63-66), as a left-to-right scanner. */
  function IsValidYouTubeUrl(url: string): (r: bool)
    ensures r ==> |url| >= |ShortHost| + 11
  {
    MatchHost(SkipWww(SkipScheme(url))).Some?
  }

  // The language of the anchored regular expression, written out: some choice of the optional
  // scheme, the optional `www.` and one of the two hosts, followed by eleven id characters.
  const Schemes: seq<string> := ["", "http://", "https://"]
  const Subdomains: seq<string> := ["", "www."]
  const Hosts: seq<string> := [LongHost, ShortHost]

  function Lead(a: nat, b: nat, c: nat): string
    requires a < 3 && b < 2 && c < 2
  {
    Schemes[a] + (Subdomains[b] + Hosts[c])
  }

  ghost predicate MatchesUrlPattern(url: string) {
    exists a: nat, b: nat, c: nat | a < 3 && b < 2 && c < 2 :: IdFollows(url, Lead(a, b, c))
  }

  lemma SkipWwwOver(b: nat, t: string)
    requires b < 2 && t != [] && t[0] == 'y'
    ensures SkipWww(Subdomains[b] + t) == t
  {
    var s := Subdomains[b] + t;
    if b == 0 {
      assert s == t;
      assert s[0] != "www."[0];
    } else {
      assert s[..4] == "www.";
      assert s[4..] == t;
    }
  }

  lemma SkipSchemeOver(a: nat, t: string)
    requires a < 3 && t != [] && (t[0] == 'y' || t[0] == 'w')
    ensures SkipScheme(Schemes[a] + t) == t
  {
    var s := Schemes[a] + t;
    if a == 0 {
      assert s == t;
      assert s[0] != "https://"[0] && s[0] != "http://"[0];
    } else if a == 1 {
      assert s[..7] == "http://";
      assert s[4] != "https://"[4];
      assert s[7..] == t;
    } else {
      assert s[..8] == "https://";
      assert s[8..] == t;
    }
  }

  lemma IdFollowsConcat(s: string, p: string, q: string)
    ensures IdFollows(s, p + q) <==> p <= s && IdFollows(s[|p|..], q)
    ensures p <= s ==> s == p + s[|p|..]
  {
    if p <= s && |s| >= |p| + |q| + 11 {
      assert (s[..|p + q|] == p + q) <==> (s[|p|..][..|q|] == q) by {
        assert s[..|p + q|] == s[..|p|] + s[|p|..][..|q|];
      }
      assert s[|p + q|..|p + q| + 11] == s[|p|..][|q|..|q| + 11];
    }
    if IdFollows(s, p + q) {
      assert s[..|p|] == (p + q)[..|p|] == p;
    }
  }

  lemma HostMatches(rest: string, c: nat)
    requires c < 2 && IdFollows(rest, Hosts[c])
    ensures MatchHost(rest).Some? && rest[0] == 'y'
  {
    assert Hosts[c] == LongHost || Hosts[c] == ShortHost;
    MatchHostCases(rest);
  }

  /** Every string in the language of the anchored regular expression passes the scanner. */
  lemma PatternImpliesValid(url: string, a: nat, b: nat, c: nat)
    requires a < 3 && b < 2 && c < 2 && IdFollows(url, Lead(a, b, c))
    ensures IsValidYouTubeUrl(url)
  {
    var sch, sub, host := Schemes[a], Subdomains[b], Hosts[c];
    IdFollowsConcat(url, sch, sub + host);
    var s1 := url[|sch|..];
    IdFollowsConcat(s1, sub, host);
    var rest := s1[|sub|..];
    HostMatches(rest, c);
    SkipWwwOver(b, rest);
    SkipSchemeOver(a, s1);
  }

  lemma SchemeChoice(url: string) returns (a: nat)
    ensures a < 3 && Schemes[a] <= url && SkipScheme(url) == url[|Schemes[a]|..]
  {
    a := if "https://" <= url then 2 else if "http://" <= url then 1 else 0;
  }

  lemma SubdomainChoice(s: string) returns (b: nat)
    ensures b < 2 && Subdomains[b] <= s && SkipWww(s) == s[|Subdomains[b]|..]
  {
    b := if "www." <= s then 1 else 0;
  }

  /** Every string the scanner accepts is in the language of the anchored regular expression. */
  lemma ValidImpliesPattern(url: string) returns (a: nat, b: nat, c: nat)
    requires IsValidYouTubeUrl(url)
    ensures a < 3 && b < 2 && c < 2 && IdFollows(url, Lead(a, b, c))
  {
    a := SchemeChoice(url);
    var s1 := SkipScheme(url);
    b := SubdomainChoice(s1);
    var s2 := SkipWww(s1);
    MatchHostCases(s2);
    c := if IdFollows(s2, LongHost) then 0 else 1;
    assert IdFollows(s2, Hosts[c]);
    IdFollowsConcat(s1, Subdomains[b], Hosts[c]);
    IdFollowsConcat(url, Schemes[a], Subdomains[b] + Hosts[c]);
  }

  /** The scanner accepts exactly the language of the anchored regular expression. */
  lemma ValidIffPattern(url: string)
    ensures IsValidYouTubeUrl(url) <==> MatchesUrlPattern(url)
  {
    if MatchesUrlPattern(url) {
      var a: nat, b: nat, c: nat :| a < 3 && b < 2 && c < 2 && IdFollows(url, Lead(a, b, c));
      PatternImpliesValid(url, a, b, c);
    }
    if IsValidYouTubeUrl(url) {
      var a, b, c := ValidImpliesPattern(url);
    }
  }

  /** `url.match(regex)` for `extractVideoId`'s unanchored expression, searching from position `i`:
      the regular expression engine tries each position in turn and returns the first capture. */
  function ExtractFrom(url: string, i: nat): (r: Option<string>)
    requires i <= |url|
    decreases |url| - i
    ensures r.Some? ==> IsVideoId(r.value)
  {
    if MatchHost(url[i..]).Some? then MatchHost(url[i..])
    else if i == |url| then None
    else ExtractFrom(url, i + 1)
  }

  /** `extractVideoId` (script.js:68-72). */
  function ExtractVideoId(url: string): (r: Option<string>)
    ensures r.Some? ==> IsVideoId(r.value)
  {
    ExtractFrom(url, 0)
  }

  /** The search returns the id at the first matching position at or after `i`. */
  lemma {:induction false} ExtractFromFirst(url: string, i: nat, j: nat)
    requires i <= j <= |url| && MatchHost(url[j..]).Some?
    requires forall k | i <= k < j :: MatchHost(url[k..]).None?
    ensures ExtractFrom(url, i) == MatchHost(url[j..])
    decreases j - i
  {
    if i < j {
      ExtractFromFirst(url, i + 1, j);
    }
  }

  /** The search finds nothing exactly when no position at or after `i` matches. */
  lemma {:induction false} ExtractFromNone(url: string, i: nat)
    requires i <= |url|
    ensures ExtractFrom(url, i).None? <==> forall j | i <= j <= |url| :: MatchHost(url[j..]).None?
    decreases |url| - i
  {
    if MatchHost(url[i..]).None? && i < |url| {
      ExtractFromNone(url, i + 1);
    }
  }

  /** `extractVideoId` returns null exactly when no position of the string starts a host followed
      by eleven id characters; otherwise it returns the id at the leftmost such position. */
  lemma ExtractSpec(url: string, j: nat)
    requires j <= |url|
    ensures ExtractVideoId(url).None? <==> forall k | 0 <= k <= |url| :: MatchHost(url[k..]).None?
    ensures MatchHost(url[j..]).Some? && (forall k | 0 <= k < j :: MatchHost(url[k..]).None?) ==>
              ExtractVideoId(url) == MatchHost(url[j..])
  {
    ExtractFromNone(url, 0);
    if MatchHost(url[j..]).Some? && (forall k | 0 <= k < j :: MatchHost(url[k..]).None?) {
      ExtractFromFirst(url, 0, j);
    }
  }

  /** Whenever `isValidYouTubeUrl` accepts, `extractVideoId` finds an id, and it is the id that follows
      the host the anchored match consumed: no earlier position of the string can start a host, since
      the optional prefixes contain no `y`. */
  lemma ValidImpliesExtract(url: string)
    requires IsValidYouTubeUrl(url)
    ensures ExtractVideoId(url).Some?
    ensures ExtractVideoId(url) == MatchHost(SkipWww(SkipScheme(url)))
  {
    var rest := SkipWww(SkipScheme(url));
    var off := |url| - |rest|;
    assert rest == url[off..];
    assert forall k | 0 <= k < off :: url[k] != 'y';
    forall k | 0 <= k < off ensures MatchHost(url[k..]).None? {
      MatchHostCases(url[k..]);
      assert url[k..][0] == url[k];
    }
    ExtractSpec(url, off);
  }

  /** A lead regrouped: scheme, then `www.`, then the host with what follows it. */
  lemma LeadSplit(a: nat, b: nat, c: nat, rest: string)
    requires a < 3 && b < 2 && c < 2
    ensures Lead(a, b, c) + rest == Schemes[a] + (Subdomains[b] + (Hosts[c] + rest))
  {
  }

  /** A host followed by an id, whatever comes after it, matches with that id as its capture. */
  lemma HostIdTail(c: nat, id: string, tail: string)
    requires c < 2 && IsVideoId(id)
    ensures var t := Hosts[c] + (id + tail);
              t != [] && t[0] == 'y' && MatchHost(t) == Some(id)
  {
    var t := Hosts[c] + (id + tail);
    MatchHostCases(t);
    if c == 0 {
      assert t[..20] == LongHost && t[20..31] == id;
    } else {
      assert t[..9] == ShortHost && t[9..20] == id;
    }
  }

  /** The two optional prefixes are skipped exactly, whatever the choice, before a host. */
  lemma SkipBoth(a: nat, b: nat, t: string)
    requires a < 3 && b < 2 && t != [] && t[0] == 'y'
    ensures SkipWww(SkipScheme(Schemes[a] + (Subdomains[b] + t))) == t
  {
    SkipWwwOver(b, t);
    var s := Subdomains[b] + t;
    assert s[0] == 'y' || s[0] == 'w';
    SkipSchemeOver(a, s);
  }

  /** Whatever the scheme, `www.` and host choice, the anchored check and the id search both ignore
      whatever follows the eleven id characters (a query string, a playlist parameter). */
  lemma TrailingTextIgnored(a: nat, b: nat, c: nat, id: string, tail: string)
    requires a < 3 && b < 2 && c < 2 && IsVideoId(id)
    ensures IsValidYouTubeUrl(Lead(a, b, c) + id + tail)
    ensures ExtractVideoId(Lead(a, b, c) + id + tail) == Some(id)
  {
    var t := Hosts[c] + (id + tail);
    var u := Lead(a, b, c) + id + tail;
    HostIdTail(c, id, tail);
    assert u == Lead(a, b, c) + (id + tail);
    LeadSplit(a, b, c, id + tail);
    SkipBoth(a, b, t);
    ValidImpliesExtract(u);
  }

  /** The id search is not anchored: a host buried inside other text still yields an id, although
      the anchored check rejects the string. */
  lemma ExtractIsUnanchored(id: string)
    requires IsVideoId(id)
    ensures !IsValidYouTubeUrl("m." + ShortHost + id)
    ensures ExtractVideoId("m." + ShortHost + id) == Some(id)
  {
    var u := "m." + ShortHost + id;
    assert u[0] == 'm' && u[1] == '.';
    assert u[0] != "https://"[0] && u[0] != "http://"[0] && u[0] != "www."[0];
    assert SkipWww(SkipScheme(u)) == u;
    MatchHostCases(u);
    var w := u[2..];
    assert w == ShortHost + id;
    assert w[9..20] == id;
    MatchHostCases(w);
    assert u[0..] == u;
    MatchHostCases(u[1..]);
    assert u[1..][0] == '.';
    ExtractSpec(u, 2);
  }
}
